=== FILE: README.md ===
# deezer-backup: a verified model of the export script's pure logic

The script `deezer-export.py` exports a Deezer user's playlists to JSON
files. It opens the OAuth consent page in a browser, catches the redirect on a
local HTTP listener, exchanges the authorization code for an access token,
lists the user's playlists, fetches each one and writes it to
`playlists_<time>/<index>.json`.

Around the I/O sits a thin layer of pure logic, and this project models that
layer as Dafny functions over immutable data:

- `PyStr`: Python's `str.startswith`, `str.split` with a one-character
  separator, and `str.join` as its inverse.
- `Decimal`: `'{}'.format(n)` for a non-negative index, and the parse that
  reads it back.
- `JsonValue`: a decoded JSON document, with Python's subscript `x[key]` and
  `for` iteration over it, exceptions included.
- `Playlists`: `get_playlist`, the mapping from a playlist-detail response to
  `{name, songs}`.
- `Export`: `save_all_playlists`, the ordered fetch of every listed playlist
  and the `<index>.json` write plan. It also holds `Network`, the provider's
  answers given as functions of the request parameters.
- `Auth`: the authorization code taken from the redirect path, and the access
  token taken from the token endpoint's `key=value&...` body.
- `Startup`: the credential check of the main guard and the consent-page URL.
- `Server`: `do_GET`, `do_HEAD` and `do_POST`, and the whole handler from a
  request to either a reply with the planned writes or an escaping exception.
- `Results` and `Errors`: `Option`/`Result`, and the Python exceptions
  (`KeyError`, `TypeError`, `IndexError`, JSON decode error) the pure paths
  can raise.

Python exceptions are `Failure` values and are never replaced by defaults.
When one of the modelled exceptions (`KeyError`, `TypeError`, `IndexError`, a
JSON decode error) escapes the handler, no reply is sent and no file is
written, because the script collects every playlist before it writes anything.

The model keeps these edge cases of the code as written:

- The code is `path.split('=')[1]`. That is the text after the first `=` up to
  the next `=`, not the whole rest of the path. So a code holding `=` is cut
  short (`Auth.ExtractCodeStopsAtEquals`). A further query parameter stays
  attached to the code (`Auth.ExtractCodeKeepsNextParameterName`).
- The token is `body.split('=')[1].split('&')[0]`. It is cut at a `=` as well
  as at a `&`. So `access_token=X&expires=Y` gives back `X` only when `X` is
  free of both characters. A body without any `=` raises `IndexError`.
- A song's fields are whatever JSON values the response holds, not
  necessarily strings, because the code copies them unchanged.
- The code iterates whatever value sits under `data`. An empty string or an
  empty object therefore gives no songs (or no playlists) instead of an error.
  A non-empty string or object fails with `TypeError` at its first element.

## Model

| member | source | states |
|---|---|---|
| PyStr.StartsWith | deezer-export.py:93 | `str.startswith`: holds exactly when the prefix is no longer than the string and agrees with it character by character |
| PyStr.Split | deezer-export.py:94 | `str.split` with a one-character separator: never empty, has at least two pieces exactly when the separator occurs, and no piece contains the separator |
| PyStr.JoinSplit | deezer-export.py:105 | joining the pieces of a split with the separator gives back the original string |
| PyStr.SplitJoin | deezer-export.py:105 | splitting a join of separator-free pieces gives back exactly those pieces |
| PyStr.SecondPiece | deezer-export.py:94 | piece `[1]` of a split is the text after the first separator, up to the next one or the end |
| Decimal.NatToString | deezer-export.py:77 | `'{}'.format(index)`: at least one character, all decimal digits, and no leading zero except for 0 itself |
| Decimal.ParseNatToString | deezer-export.py:77 | reading back the decimal text `'{}'.format(index)` gives the index |
| Auth.ExtractCode | deezer-export.py:93-94 | a code is produced exactly for paths starting with `/authfinish?code=`, the `[1]` subscript never raises on them, and the code never contains `=` |
| Auth.ExtractCodeIsTextAfterPrefix | deezer-export.py:93-94 | the code is the text after the prefix, up to the next `=` or the end of the path |
| Auth.ExtractCodeRoundTrip | deezer-export.py:93-94 | the path `/authfinish?code=` + c yields c for every c without `=` |
| Auth.ExtractCodeStopsAtEquals | deezer-export.py:94 | a code containing `=` is silently truncated at its first `=` |
| Auth.ExtractCodeKeepsNextParameterName | deezer-export.py:94 | with a following `&name=value` parameter, the code comes through as `c&name` |
| Auth.ParseToken | deezer-export.py:105 | the parse succeeds exactly when the body contains `=`, and raises IndexError otherwise; a token contains neither `=` nor `&` |
| Auth.ParseTokenIsSpan | deezer-export.py:105 | the token is the substring that starts after the body's first `=` and stops before the next `=` or `&` |
| Auth.ParseTokenRoundTrip | deezer-export.py:105 | `key=x` followed by `&` or `=` yields x, for every key without `=` and every x without `=` or `&` |
| Auth.ParseTokenOfProviderBody | deezer-export.py:105 | the token endpoint's answer `access_token=X&expires=Y` yields X |
| JsonValue.Elements | deezer-export.py:39 | iteration accepts a list, a string or an empty dict; a list gives its items in order |
| Playlists.ToSong | deezer-export.py:40-46 | a track maps to a song exactly when it has `title`, `artist.name` and `album.title`, and the song holds exactly those values |
| Playlists.ToSongs | deezer-export.py:39-47 | the songs keep the tracks' length and order, with song k built from track k; otherwise the error is that of the first track missing a field |
| Playlists.GetPlaylist | deezer-export.py:37-49 | success exactly when `title`, `tracks.data` and every track's fields are present; the name is `title`, and the songs follow `tracks.data` one for one |
| Playlists.MissingArtistRaises | deezer-export.py:38-44 | a track without `artist`, after complete tracks, makes the fetch raise `KeyError('artist')` instead of defaulting the song |
| JsonValue.Lookup | deezer-export.py:38-44 | a subscript `x['k']` succeeds exactly on a dict holding the key, with its value; it raises KeyError on a dict without the key and TypeError on any other value |
| Export.Decoded | deezer-export.py:37 | `req.json()`: a decoded body is returned unchanged (success exactly when the body is JSON); a body that is not JSON raises the decode error |
| Export.FetchPlaylist | deezer-export.py:67-68 | one listing entry: succeeds exactly when it is a dict with `id` and that playlist's detail decodes and is well formed; the result is exactly `get_playlist` of the decoded detail (so its name and songs), a detail that is not JSON raises the decode error, and an entry without `id` raises KeyError or TypeError before any fetch |
| Export.FetchAll | deezer-export.py:66-70 | one playlist per listing entry, in listing order; failure exactly when some entry's fetch fails, with the error of the first failing entry |
| Export.Plan | deezer-export.py:76-77 | one write per playlist, in order, with playlist k in write k; the names are pinned down by `Export.PlanFileNames` |
| Export.FileName | deezer-export.py:77 | `'{}.json'.format(index)`: the name ends in `.json` and everything before it is a non-empty run of decimal digits |
| Export.FileNameIndex | deezer-export.py:77 | the name ends in `.json` and the text before it reads back as the index |
| Export.FileNameInjective | deezer-export.py:76-77 | two positions share a file name only if they are the same position |
| Export.PlanFileNames | deezer-export.py:76-77 | the planned file names are pairwise distinct and are exactly `0.json` … `(N-1).json` |
| Export.SaveAllPlaylistsOrder | deezer-export.py:63-79 | for a well-shaped listing, playlist k of the `data` array is written to `k.json`, with one write per entry |
| Export.ListingEntries | deezer-export.py:63-66 | the listing loop's entries exist exactly when the listing decodes to a dict whose `data` is a list, a string or an empty dict; for a list they are its items in order |
| Export.SaveAllPlaylists | deezer-export.py:63-79 | a listing failure is passed on unchanged; otherwise success exactly when every entry's fetch succeeds, with write k being `k.json` with playlist k, and on failure the error of the first failing entry |
| Export.NothingWrittenOnFailure | deezer-export.py:64-79 | if any playlist fetch fails, nothing is written |
| Server.Respond | deezer-export.py:86-89 | `_set_headers` plus the written body: status 200, a `Content-type: text/html` header, and the given body |
| Server.Dispatch | deezer-export.py:86-120 | every reply is 200 with `Content-type: text/html`; only a GET whose path starts with `/authfinish?code=` triggers the export; HEAD has no body; GET and POST have their own fixed pages |
| Server.Handle | deezer-export.py:91-112 | a reply is always the dispatch reply; a request that does not trigger the export replies and writes nothing; only the redirect can fail, and it fails with IndexError when the token body has no `=` |
| Server.OnlyRedirectUsesNetwork | deezer-export.py:91-120 | the outcome of a request that does not trigger the export does not depend on the provider |
| Server.RedirectRunsExport | deezer-export.py:93-112 | the redirect sends the code with the app credentials, and the token from the answer drives the export; the page is sent only after the plan is complete |
| Startup.Falsy | deezer-export.py:135 | Python's `not v` on an environment lookup: true exactly when the variable is unset or empty |
| Startup.AuthorizeUrl | deezer-export.py:142-144 | the consent URL starts with the auth endpoint, the app id and `&redirect_uri=` followed by the registered redirect URI, and ends with `&perms=basic_access,email`, with nothing between the two: its length is exactly theirs, so the URL is that one string and asks for no other scope |
| Startup.Start | deezer-export.py:135-145 | startup proceeds exactly when APP_ID and APP_SECRET are both set and non-empty, and raises the fixed message otherwise; on success it serves on port 7766 with the two values and opens exactly `AuthorizeUrl` of the app id |
| Startup.RedirectUriNamesListenPort | deezer-export.py:122-143 | the redirect URI names the port the listener binds (7766) |
| Startup.RedirectReachesHandler | deezer-export.py:93-143 | the redirect the provider sends to the registered URI has a path the handler recognises, and the handler recovers the code from it |

## Left out

- The HTTP server, socket handling and `serve_forever` (lines 122-130): I/O that runs forever. Methods other than GET, HEAD and POST are answered by the standard library, which is not part of this model.
- The listener thread and `join` (lines 140-146): their only role is concurrency.
- The outbound `requests.get` calls and `time.sleep` (lines 36, 63, 101-103): network calls and timing. Their answers are the `Network` parameter, keyed on the request parameters. The text of each request URL is not modelled, including how a playlist id is formatted into it.
- JSON decoding itself (`req.json()`): a library call. A body is either a decoded `Json` value or not JSON, and the latter raises. JSON numbers are modelled as integers only.
- `webbrowser.open` (line 145): a foreign call. Only the URL it is given is modelled.
- The directory name from `time.time()` and `os.path.exists`/`makedirs`/`open` (lines 72-80): a wall-clock float and filesystem I/O. A `Write` carries the file name inside the run's directory, not the joined path.
- `json.dump` (line 79): the JSON text encoding is a library call. A `Write` carries the playlist value that would be serialised.
- `print` logging (lines 95-104, 129).
- JsonValue.Elements: for a non-empty dict, the model raises the `TypeError` at the iteration itself. Python raises it one step later, at the first key's subscript; nothing observable happens in between, so the outcome is the same.
- Filesystem failures: an `OSError` from `open` at write k > 0 escapes after `0.json` … `(k-1).json` are already on disk. The model has no filesystem, so it does not represent this partial set of files.
- Server.Dispatch: `Reply.headers` holds only the header the handler sets itself. The `Server` and `Date` headers that `send_response` adds are not modelled.

=== FILE: auth.dfy ===
/** The two small parsers of the OAuth exchange: the authorization code taken
    from the redirect path, and the access token taken from the token
    endpoint's `key=value&key=value` body. */
module Auth {
  import opened Results
  import opened Errors
  import opened PyStr

  /** The path prefix of the redirect that carries the code. */
  const CodePrefix: string := "/authfinish?code="

  /** The code of a redirect path: `path.split('=')[1]` once the path starts
      with `CodePrefix`, and nothing for any other path. The prefix ends with
      its only `=`, so the subscript cannot raise. */
  function ExtractCode(path: string): (code: Option<string>)
    ensures code.Some? <==> StartsWith(path, CodePrefix)
    ensures code.Some? ==> '=' !in code.value
  {
    if StartsWith(path, CodePrefix) then
      var pieces := Split(path, '=');
      assert path[|CodePrefix| - 1] == CodePrefix[|CodePrefix| - 1] == '=';
      Some(pieces[1])
    else
      None
  }

  /** Behind the prefix, the code is the first `=`-piece of the rest. */
  lemma ExtractCodeIsFirstPiece(rest: string)
    ensures ExtractCode(CodePrefix + rest) == Some(Split(rest, '=')[0])
  {
    var path := CodePrefix + rest;
    assert path[..|CodePrefix|] == CodePrefix;
    assert path == "/authfinish?code" + ['='] + rest;
    SplitAtFirst("/authfinish?code", rest, '=');
  }

  /** The code is the text after the prefix up to the next `=`, or to the end
      of the path when there is none. */
  lemma ExtractCodeIsTextAfterPrefix(path: string)
    requires StartsWith(path, CodePrefix)
    ensures var rest := path[|CodePrefix|..];
            ExtractCode(path) == Some(rest[..IndexOf(rest, '=')])
  {
    var rest := path[|CodePrefix|..];
    assert path == CodePrefix + rest;
    ExtractCodeIsFirstPiece(rest);
    FirstPiece(rest, '=');
  }

  /** A redirect to `CodePrefix + c` yields `c`, for every `c` without `=`. */
  lemma ExtractCodeRoundTrip(c: string)
    requires '=' !in c
    ensures ExtractCode(CodePrefix + c) == Some(c)
  {
    ExtractCodeIsFirstPiece(c);
    SplitWithoutSeparator(c, '=');
  }

  /** A code that itself contains `=` is cut at it: only the text before the
      second `=` of the path comes through. */
  lemma ExtractCodeStopsAtEquals(c: string, rest: string)
    requires '=' !in c
    ensures ExtractCode(CodePrefix + c + ['='] + rest) == Some(c)
  {
    assert CodePrefix + c + ['='] + rest == CodePrefix + (c + ['='] + rest);
    ExtractCodeIsFirstPiece(c + ['='] + rest);
    SplitAtFirst(c, rest, '=');
  }

  /** A further query parameter after the code is not split off: the `&` and
      the parameter's name stay glued to the code. */
  lemma ExtractCodeKeepsNextParameterName(c: string, name: string, value: string)
    requires '=' !in c && '=' !in name
    ensures ExtractCode(CodePrefix + c + ['&'] + name + ['='] + value) == Some(c + ['&'] + name)
  {
    assert CodePrefix + c + ['&'] + name + ['='] + value == CodePrefix + (c + ['&'] + name) + ['='] + value;
    ExtractCodeStopsAtEquals(c + ['&'] + name, value);
  }

  /** `body.split('=')[1].split('&')[0]`: IndexError when the body has no `=`. */
  function ParseToken(body: string): (token: Result<string, Error>)
    ensures token.Success? <==> '=' in body
    ensures token.Failure? ==> token.error == IndexError
    ensures token.Success? ==> '=' !in token.value && '&' !in token.value
  {
    var pieces := Split(body, '=');
    if |pieces| < 2 then Failure(IndexError) else Success(Split(pieces[1], '&')[0])
  }

  /** After a first key free of `=`, the token is the first `&`-piece of the
      first `=`-piece of what follows. */
  lemma ParseTokenAfterKey(key: string, rest: string)
    requires '=' !in key
    ensures ParseToken(key + ['='] + rest) == Success(Split(Split(rest, '=')[0], '&')[0])
  {
    SplitAtFirst(key, rest, '=');
  }

  /** The token is the stretch of the body that starts after its first `=`
      and stops before the next `=` or `&`, or at the end. */
  lemma ParseTokenIsSpan(body: string)
    requires '=' in body
    ensures var start := IndexOf(body, '=') + 1;
            var rest := body[start..];
            var len := if IndexOf(rest, '&') < IndexOf(rest, '=') then IndexOf(rest, '&') else IndexOf(rest, '=');
            ParseToken(body) == Success(rest[..len])
  {
    var i := IndexOf(body, '=');
    var rest := body[i + 1..];
    assert body == body[..i] + ['='] + rest;
    ParseTokenAfterKey(body[..i], rest);
    FirstPieceOfFirstPiece(rest, '=', '&');
  }

  /** A body `key=x` followed by `&...` or `=...` yields `x`, for every key
      without `=` and every `x` without `=` or `&`. */
  lemma ParseTokenRoundTrip(key: string, x: string, delimiter: char, rest: string)
    requires '=' !in key && '=' !in x && '&' !in x
    requires delimiter == '&' || delimiter == '='
    ensures ParseToken(key + ['='] + x + [delimiter] + rest) == Success(x)
  {
    var tail := x + [delimiter] + rest;
    assert key + ['='] + x + [delimiter] + rest == key + ['='] + tail;
    ParseTokenAfterKey(key, tail);
    if delimiter == '&' {
      FirstPieceAfter(x + ['&'], rest, '=');
      SplitAtFirst(x, Split(rest, '=')[0], '&');
    } else {
      SplitAtFirst(x, rest, '=');
      SplitWithoutSeparator(x, '&');
    }
  }

  /** The token endpoint's answer `access_token=X&expires=Y` yields X, for
      every X without `=` or `&` and every Y. */
  lemma ParseTokenOfProviderBody(x: string, y: string)
    requires '=' !in x && '&' !in x
    ensures ParseToken("access_token=" + x + "&expires=" + y) == Success(x)
  {
    assert "access_token=" + x + "&expires=" + y == "access_token" + ['='] + x + ['&'] + ("expires=" + y);
    ParseTokenRoundTrip("access_token", x, '&', "expires=" + y);
  }
}

=== FILE: decimal.dfy ===
/** Decimal text of a non-negative integer, as Python's `'{}'.format(n)`
    writes it, and the parse that reads it back. */
module Decimal {

  predicate IsDigit(c: char) {
    '0' <= c <= '9'
  }

  function DigitChar(d: nat): (c: char)
    requires d < 10
    ensures IsDigit(c)
  {
    ('0' as int + d) as char
  }

  function DigitValue(c: char): (d: nat)
    requires IsDigit(c)
    ensures d < 10 && DigitChar(d) == c
  {
    c as int - '0' as int
  }

  /** Decimal digits of `n`, most significant first, without leading zeros. */
  function NatToString(n: nat): (s: string)
    ensures |s| >= 1
    ensures forall k :: 0 <= k < |s| ==> IsDigit(s[k])
    ensures s[0] == '0' ==> n == 0 && s == "0"
    decreases n
  {
    if n < 10 then [DigitChar(n)] else NatToString(n / 10) + [DigitChar(n % 10)]
  }

  /** The value of a string of decimal digits. */
  function ParseNat(s: string): (n: nat)
    requires forall k :: 0 <= k < |s| ==> IsDigit(s[k])
  {
    if |s| == 0 then 0 else 10 * ParseNat(s[..|s| - 1]) + DigitValue(s[|s| - 1])
  }

  /** Reading back the decimal text of `n` gives `n`. */
  lemma {:induction false} ParseNatToString(n: nat)
    ensures ParseNat(NatToString(n)) == n
    decreases n
  {
    var s := NatToString(n);
    if n >= 10 {
      ParseNatToString(n / 10);
      assert s[..|s| - 1] == NatToString(n / 10);
      assert DigitValue(DigitChar(n % 10)) == n % 10;
    } else {
      assert DigitValue(DigitChar(n)) == n;
    }
  }
}

=== FILE: export.dfy ===
/** `save_all_playlists`: fetch every playlist of the listing, in listing
    order, then plan one `<index>.json` file per playlist. */
module Export {
  import opened Results
  import opened Errors
  import opened JsonValue
  import opened Playlists
  import opened Decimal

  /** What the provider's endpoints answer, as functions of the request
      parameters. A `None` body is one that is not JSON, so `req.json()` raises. */
  datatype Network = Network(
    accessToken: (string, string, string) -> string,  // text of the token endpoint for (app id, secret, code)
    myPlaylists: string -> Option<Json>,              // the user's playlist listing for a token
    playlist: (Json, string) -> Option<Json>)         // the detail of playlist `id` for a token

  /** `req.json()`. */
  function Decoded(body: Option<Json>): (r: Result<Json, Error>)
    ensures r.Success? <==> body.Some?
    ensures r.Success? ==> r.value == body.value
    ensures r.Failure? ==> r.error == JsonDecodeError
  {
    match body
    case Some(j) => Success(j)
    case None => Failure(JsonDecodeError)
  }

  /** One iteration of the listing loop: read `id`, fetch and map its detail. */
  function FetchPlaylist(entry: Json, token: string, net: Network): (r: Result<Playlist, Error>)
    ensures r.Success? <==>
              && entry.JObj? && "id" in entry.fields
              && net.playlist(entry.fields["id"], token).Some?
              && WellFormed(net.playlist(entry.fields["id"], token).value)
    ensures r.Success? ==> r.value.name == net.playlist(entry.fields["id"], token).value.fields["title"]
    ensures !(entry.JObj? && "id" in entry.fields) ==> r == Failure(if entry.JObj? then KeyError("id") else TypeError)
    ensures entry.JObj? && "id" in entry.fields && net.playlist(entry.fields["id"], token).None? ==>
              r == Failure(JsonDecodeError)
    ensures entry.JObj? && "id" in entry.fields && net.playlist(entry.fields["id"], token).Some? ==>
              r == GetPlaylist(net.playlist(entry.fields["id"], token).value)
  {
    var id :- Lookup(entry, "id");
    var detail :- Decoded(net.playlist(id, token));
    GetPlaylist(detail)
  }

  /** The listing loop: one playlist per entry in entry order, or the first
      exception, in which case nothing is kept. */
  function FetchAll(entries: seq<Json>, token: string, net: Network): (r: Result<seq<Playlist>, Error>)
    ensures r.Success? <==> forall k :: 0 <= k < |entries| ==> FetchPlaylist(entries[k], token, net).Success?
    ensures r.Success? ==> |r.value| == |entries|
    ensures r.Success? ==>
              forall k :: 0 <= k < |entries| ==> FetchPlaylist(entries[k], token, net) == Success(r.value[k])
    ensures r.Failure? ==>
              exists k :: 0 <= k < |entries| && FetchPlaylist(entries[k], token, net) == Failure(r.error)
                          && forall i :: 0 <= i < k ==> FetchPlaylist(entries[i], token, net).Success?
  {
    if |entries| == 0 then Success([])
    else
      var first :- FetchPlaylist(entries[0], token, net);
      var rest :- FetchAll(entries[1..], token, net);
      Success([first] + rest)
  }

  /** One file to write: its name inside the run's directory and its content. */
  datatype Write = Write(filename: string, playlist: Playlist)

  /** `'{}.json'.format(index)`. */
  function FileName(index: nat): (name: string)
    ensures |name| >= 6 && name[|name| - 5..] == ".json"
    ensures forall k :: 0 <= k < |name| - 5 ==> IsDigit(name[k])
  {
    NatToString(index) + ".json"
  }

  /** The `enumerate` loop: the playlist at position i goes to `<i>.json`. */
  function Plan(playlists: seq<Playlist>): (writes: seq<Write>)
    ensures |writes| == |playlists|
    ensures forall k :: 0 <= k < |writes| ==> writes[k].playlist == playlists[k]
  {
    seq(|playlists|, k requires 0 <= k < |playlists| => Write(FileName(k), playlists[k]))
  }

  /** The entries of the listing's `data`, the sequence the listing loop
      walks (lines 63 and 66 of the script). */
  function ListingEntries(token: string, net: Network): (r: Result<seq<Json>, Error>)
    ensures r.Success? <==>
              && net.myPlaylists(token).Some?
              && var listing := net.myPlaylists(token).value;
                 && listing.JObj? && "data" in listing.fields
                 && var data := listing.fields["data"];
                    data.JArr? || data.JStr? || data == JObj(map[])
    ensures r.Success? && net.myPlaylists(token).value.fields["data"].JArr? ==>
              r.value == net.myPlaylists(token).value.fields["data"].items
    ensures net.myPlaylists(token).None? ==> r == Failure(JsonDecodeError)
  {
    var listing :- Decoded(net.myPlaylists(token));
    var data :- Lookup(listing, "data");
    Elements(data)
  }

  /** `save_all_playlists(token)` up to the file writes: the writes it would
      perform, or the exception that stops it before any file is written. */
  function SaveAllPlaylists(token: string, net: Network): (r: Result<seq<Write>, Error>)
    ensures ListingEntries(token, net).Failure? ==> r == Failure(ListingEntries(token, net).error)
    ensures ListingEntries(token, net).Success? ==>
              var entries := ListingEntries(token, net).value;
              && (r.Success? <==> forall k :: 0 <= k < |entries| ==> FetchPlaylist(entries[k], token, net).Success?)
              && (r.Success? ==>
                    && |r.value| == |entries|
                    && forall k :: 0 <= k < |entries| ==>
                         r.value[k] == Write(FileName(k), FetchPlaylist(entries[k], token, net).value))
              && (r.Failure? ==>
                    exists k :: 0 <= k < |entries| && FetchPlaylist(entries[k], token, net) == Failure(r.error)
                                && forall i :: 0 <= i < k ==> FetchPlaylist(entries[i], token, net).Success?)
  {
    var entries :- ListingEntries(token, net);
    var playlists :- FetchAll(entries, token, net);
    Success(Plan(playlists))
  }

  /** The file name of a write gives back its position. */
  lemma FileNameIndex(index: nat)
    ensures var name := FileName(index);
            |name| > 5 && name[|name| - 5..] == ".json"
            && ParseNat(name[..|name| - 5]) == index
  {
    var name := FileName(index);
    assert name[..|name| - 5] == NatToString(index);
    ParseNatToString(index);
  }

  /** Two positions share a file name only when they are the same position. */
  lemma FileNameInjective(i: nat, j: nat)
    requires FileName(i) == FileName(j)
    ensures i == j
  {
    FileNameIndex(i);
    FileNameIndex(j);
  }

  /** A plan writes each playlist to its own file, and the files are exactly
      `0.json` ... `(N-1).json`. */
  lemma {:induction false} PlanFileNames(playlists: seq<Playlist>)
    ensures var writes := Plan(playlists);
            && (forall i, j :: 0 <= i < j < |writes| ==> writes[i].filename != writes[j].filename)
            && (set k | 0 <= k < |writes| :: writes[k].filename) == (set n: nat | n < |playlists| :: FileName(n))
  {
    var writes := Plan(playlists);
    forall i, j | 0 <= i < j < |writes|
      ensures writes[i].filename != writes[j].filename
    {
      if writes[i].filename == writes[j].filename {
        FileNameInjective(i, j);
      }
    }
    var names := set k | 0 <= k < |writes| :: writes[k].filename;
    var wanted := set n: nat | n < |playlists| :: FileName(n);
    forall x | x in wanted
      ensures x in names
    {
      var n: nat :| n < |playlists| && x == FileName(n);
      assert writes[n].filename == x;
    }
    forall x | x in names
      ensures x in wanted
    {
      var k :| 0 <= k < |writes| && x == writes[k].filename;
      assert x == FileName(k);
    }
  }

  /** What `save_all_playlists` does when every response has the expected
      shape: the listing's `data` array is fetched in order and playlist k of
      it is written to `k.json`. */
  lemma {:induction false} SaveAllPlaylistsOrder(token: string, net: Network)
    requires net.myPlaylists(token).Some?
    requires var listing := net.myPlaylists(token).value;
             listing.JObj? && "data" in listing.fields && listing.fields["data"].JArr?
    requires var entries := net.myPlaylists(token).value.fields["data"].items;
             forall k :: 0 <= k < |entries| ==> FetchPlaylist(entries[k], token, net).Success?
    ensures var entries := net.myPlaylists(token).value.fields["data"].items;
            var r := SaveAllPlaylists(token, net);
            && r.Success? && |r.value| == |entries|
            && forall k :: 0 <= k < |entries| ==>
                 r.value[k] == Write(FileName(k), FetchPlaylist(entries[k], token, net).value)
  {
  }

  /** One failing playlist fetch means no file is planned at all. */
  lemma NothingWrittenOnFailure(token: string, net: Network, entries: seq<Json>, k: nat)
    requires net.myPlaylists(token).Some?
    requires var listing := net.myPlaylists(token).value;
             listing.JObj? && "data" in listing.fields && listing.fields["data"] == JArr(entries)
    requires k < |entries| && FetchPlaylist(entries[k], token, net).Failure?
    ensures SaveAllPlaylists(token, net).Failure?
  {
  }
}

=== FILE: json.dfy ===
/** A decoded JSON document as Python's `json` module hands it to the script,
    and the two things the script does with one: subscript it with a string key
    and iterate over it. */
module JsonValue {
  import opened Results
  import opened Errors

  datatype Json =
    | JNull
    | JBool(b: bool)
    | JNum(n: int)
    | JStr(s: string)
    | JArr(items: seq<Json>)
    | JObj(fields: map<string, Json>)

  /** `j[key]`: a dict yields the value or raises KeyError; every other JSON
      value (list, str, number, bool, None) raises TypeError. */
  function Lookup(j: Json, key: string): (r: Result<Json, Error>)
    ensures r.Success? <==> j.JObj? && key in j.fields
    ensures r.Success? ==> r.value == j.fields[key]
    ensures r.Failure? ==> r.error == (if j.JObj? then KeyError(key) else TypeError)
  {
    match j
    case JObj(fields) => if key in fields then Success(fields[key]) else Failure(KeyError(key))
    case _ => Failure(TypeError)
  }

  /** The elements a `for x in j` loop visits, for a loop whose body first
      subscripts `x` with a string key. A list yields its items and a string its
      one-character strings. A dict yields its keys, which are strings, so the
      body's first subscript raises TypeError unless the dict is empty; that
      TypeError is raised here, since the key order is not modelled. None,
      numbers and booleans are not iterable. */
  function Elements(j: Json): (r: Result<seq<Json>, Error>)
    ensures r.Success? <==> j.JArr? || j.JStr? || j == JObj(map[])
    ensures j.JArr? ==> r == Success(j.items)
    ensures r.Success? && !j.JArr? ==> forall k :: 0 <= k < |r.value| ==> r.value[k].JStr?
  {
    match j
    case JArr(items) => Success(items)
    case JStr(s) => Success(seq(|s|, k requires 0 <= k < |s| => JStr([s[k]])))
    case JObj(fields) => if |fields| == 0 then Success([]) else Failure(TypeError)
    case _ => Failure(TypeError)
  }
}

=== FILE: playlists.dfy ===
/** `get_playlist`: the mapping from a playlist-detail response to the
    exported `{name, songs}` record. Every field is read with a plain
    subscript, so a missing field raises instead of being defaulted. */
module Playlists {
  import opened Results
  import opened Errors
  import opened JsonValue

  /** One exported track. The script copies whatever JSON value it finds,
      so the fields are JSON values rather than strings. */
  datatype Song = Song(title: Json, artist: Json, album: Json)

  datatype Playlist = Playlist(name: Json, songs: seq<Song>)

  /** A track carries `title`, `artist.name` and `album.title`. */
  predicate HasSongFields(t: Json) {
    && t.JObj? && "title" in t.fields
    && "artist" in t.fields && t.fields["artist"].JObj? && "name" in t.fields["artist"].fields
    && "album" in t.fields && t.fields["album"].JObj? && "title" in t.fields["album"].fields
  }

  /** The song a well-formed track describes, read field by field. */
  function SongFields(t: Json): (song: Song)
    requires HasSongFields(t)
  {
    Song(t.fields["title"], t.fields["artist"].fields["name"], t.fields["album"].fields["title"])
  }

  /** The three subscripts of one loop iteration, in the order Python
      evaluates them. */
  function ToSong(t: Json): (r: Result<Song, Error>)
    ensures r.Success? <==> HasSongFields(t)
    ensures r.Success? ==> r.value == SongFields(t)
  {
    var title :- Lookup(t, "title");
    var artistObj :- Lookup(t, "artist");
    var artist :- Lookup(artistObj, "name");
    var albumObj :- Lookup(t, "album");
    var album :- Lookup(albumObj, "title");
    Success(Song(title, artist, album))
  }

  /** The loop over the tracks: songs in track order, or the exception of the
      first track that lacks a field. */
  function ToSongs(tracks: seq<Json>): (r: Result<seq<Song>, Error>)
    ensures r.Success? <==> forall k :: 0 <= k < |tracks| ==> HasSongFields(tracks[k])
    ensures r.Success? ==> |r.value| == |tracks|
    ensures r.Success? ==>
              forall k :: 0 <= k < |tracks| ==> HasSongFields(tracks[k]) && r.value[k] == SongFields(tracks[k])
    ensures r.Failure? ==>
              exists k :: 0 <= k < |tracks| && ToSong(tracks[k]) == Failure(r.error)
                          && forall i :: 0 <= i < k ==> HasSongFields(tracks[i])
  {
    if |tracks| == 0 then Success([])
    else
      var song :- ToSong(tracks[0]);
      var rest :- ToSongs(tracks[1..]);
      Success([song] + rest)
  }

  /** The playlist detail has `title` and a `tracks.data` the loop can walk
      to the end. */
  predicate WellFormed(item: Json) {
    && item.JObj? && "title" in item.fields
    && "tracks" in item.fields && item.fields["tracks"].JObj? && "data" in item.fields["tracks"].fields
    && var data := item.fields["tracks"].fields["data"];
       if data.JArr? then forall k :: 0 <= k < |data.items| ==> HasSongFields(data.items[k])
       else data == JStr("") || data == JObj(map[])
  }

  /** `get_playlist` applied to the decoded detail response. */
  function GetPlaylist(item: Json): (r: Result<Playlist, Error>)
    ensures r.Success? <==> WellFormed(item)
    ensures r.Success? ==> r.value.name == item.fields["title"]
    ensures r.Success? ==>
              var data := item.fields["tracks"].fields["data"];
              if data.JArr? then
                |r.value.songs| == |data.items|
                && forall k :: 0 <= k < |data.items| ==> r.value.songs[k] == SongFields(data.items[k])
              else r.value.songs == []
  {
    var name :- Lookup(item, "title");
    var tracks :- Lookup(item, "tracks");
    var data :- Lookup(tracks, "data");
    var elements :- Elements(data);
    var songs :- ToSongs(elements);
    Success(Playlist(name, songs))
  }

  /** A track without `artist`, after tracks that are all complete, makes
      `get_playlist` raise `KeyError('artist')`: no song is defaulted. */
  lemma MissingArtistRaises(item: Json, k: nat)
    requires item.JObj? && "title" in item.fields
    requires "tracks" in item.fields && item.fields["tracks"].JObj? && "data" in item.fields["tracks"].fields
    requires item.fields["tracks"].fields["data"].JArr?
    requires var tracks := item.fields["tracks"].fields["data"].items;
             && k < |tracks|
             && (forall i :: 0 <= i < k ==> HasSongFields(tracks[i]))
             && tracks[k].JObj? && "title" in tracks[k].fields && "artist" !in tracks[k].fields
    ensures GetPlaylist(item) == Failure(KeyError("artist"))
  {
    var tracks := item.fields["tracks"].fields["data"].items;
    var r := ToSongs(tracks);
    assert !HasSongFields(tracks[k]);
    var j :| 0 <= j < |tracks| && ToSong(tracks[j]) == Failure(r.error)
             && forall i :: 0 <= i < j ==> HasSongFields(tracks[i]);
    if j < k {
      assert false;
    }
    if j > k {
      assert false;
    }
  }
}

=== FILE: pystr.dfy ===
/** Python string operations the script relies on: `str.startswith` and
    `str.split` with a one-character separator, with `str.join` as the
    partner that undoes a split. */
module PyStr {

  /** `s.startswith(prefix)`. */
  predicate StartsWith(s: string, prefix: string)
    ensures StartsWith(s, prefix) <==>
              |prefix| <= |s| && forall k :: 0 <= k < |prefix| ==> s[k] == prefix[k]
  {
    |prefix| <= |s| && s[..|prefix|] == prefix
  }

  /** Position of the first `c` in `s`, or `|s|` when `c` does not occur. */
  function IndexOf(s: string, c: char): (i: nat)
    ensures i <= |s|
    ensures i < |s| <==> c in s
    ensures i < |s| ==> s[i] == c
    ensures c !in s[..i]
  {
    if |s| == 0 then 0
    else if s[0] == c then 0
    else
      var k := IndexOf(s[1..], c);
      assert s[..1 + k] == [s[0]] + s[1..][..k];
      1 + k
  }

  /** `s.split(sep)` for a one-character `sep`: the text between successive
      occurrences of `sep`, empty pieces included, so that "".split(sep) is [""]. */
  function Split(s: string, sep: char): (pieces: seq<string>)
    ensures |pieces| >= 1
    ensures |pieces| >= 2 <==> sep in s
    ensures forall k :: 0 <= k < |pieces| ==> sep !in pieces[k]
    decreases |s|
  {
    var i := IndexOf(s, sep);
    if i == |s| then
      [s]
    else
      var rest := Split(s[i + 1..], sep);
      [s[..i]] + rest
  }

  /** `sep.join(pieces)`. */
  function Join(pieces: seq<string>, sep: char): (s: string)
    requires |pieces| >= 1
  {
    if |pieces| == 1 then pieces[0] else pieces[0] + [sep] + Join(pieces[1..], sep)
  }

  /** Splitting at the first separator: the piece before it comes first and the
      rest is the split of what follows it. */
  lemma {:induction false} SplitAtFirst(a: string, b: string, sep: char)
    requires sep !in a
    ensures Split(a + [sep] + b, sep) == [a] + Split(b, sep)
  {
    var s := a + [sep] + b;
    var i := IndexOf(s, sep);
    assert s[|a|] == sep;
    assert s[..|a|] == a;
    if i < |a| {
      assert false;
    }
    if i > |a| {
      assert false;
    }
    assert s[..i] == a;
    assert s[i + 1..] == b;
  }

  /** A string with no separator splits into itself alone. */
  lemma SplitWithoutSeparator(s: string, sep: char)
    requires sep !in s
    ensures Split(s, sep) == [s]
  {
  }

  /** Joining the pieces of a split restores the string. */
  lemma {:induction false} JoinSplit(s: string, sep: char)
    ensures Join(Split(s, sep), sep) == s
    decreases |s|
  {
    var i := IndexOf(s, sep);
    if i < |s| {
      var a, b := s[..i], s[i + 1..];
      assert s == a + [sep] + b;
      SplitAtFirst(a, b, sep);
      JoinSplit(b, sep);
      assert Split(s, sep)[1..] == Split(b, sep);
    }
  }

  /** Splitting a join of separator-free pieces gives the pieces back. */
  lemma {:induction false} SplitJoin(pieces: seq<string>, sep: char)
    requires |pieces| >= 1
    requires forall k :: 0 <= k < |pieces| ==> sep !in pieces[k]
    ensures Split(Join(pieces, sep), sep) == pieces
  {
    if |pieces| == 1 {
      SplitWithoutSeparator(pieces[0], sep);
    } else {
      SplitJoin(pieces[1..], sep);
      SplitAtFirst(pieces[0], Join(pieces[1..], sep), sep);
      assert pieces == [pieces[0]] + pieces[1..];
    }
  }

  /** The first piece of a split is the text before the first separator. */
  lemma {:induction false} FirstPiece(s: string, sep: char)
    ensures Split(s, sep)[0] == s[..IndexOf(s, sep)]
  {
  }

  /** The second piece of a split is the text after the first separator, up to
      the next separator or the end. */
  lemma {:induction false} SecondPiece(s: string, sep: char)
    requires sep in s
    ensures var i := IndexOf(s, sep);
            var rest := s[i + 1..];
            Split(s, sep)[1] == rest[..IndexOf(rest, sep)]
  {
  }

  /** The first `c` of a prefix of `s` is the first `c` of `s`, when that lies
      inside the prefix. */
  lemma IndexOfPrefix(s: string, n: nat, c: char)
    requires n <= |s|
    ensures IndexOf(s[..n], c) == if IndexOf(s, c) < n then IndexOf(s, c) else n
  {
  }

  /** Past a stretch free of `c`, the first `c` is the first `c` of the rest. */
  lemma IndexOfAfter(a: string, b: string, c: char)
    requires c !in a
    ensures IndexOf(a + b, c) == |a| + IndexOf(b, c)
  {
    var s := a + b;
    var i, j := IndexOf(s, c), IndexOf(b, c);
    assert s[..|a|] == a;
    if i < |a| {
      assert false;
    }
    assert s[|a|..] == b;
    if i < |a| + j {
      assert false;
    }
    if i > |a| + j {
      assert false;
    }
  }

  /** The first piece of `a + b`, for `a` free of the separator, is `a`
      followed by the first piece of `b`. */
  lemma FirstPieceAfter(a: string, b: string, sep: char)
    requires sep !in a
    ensures Split(a + b, sep)[0] == a + Split(b, sep)[0]
  {
    FirstPiece(a + b, sep);
    FirstPiece(b, sep);
    IndexOfAfter(a, b, sep);
    assert (a + b)[..|a| + IndexOf(b, sep)] == a + b[..IndexOf(b, sep)];
  }

  /** Splitting at `a` and then the first piece at `b` keeps the text up to
      the first `a` or `b`, whichever comes first. */
  lemma FirstPieceOfFirstPiece(s: string, a: char, b: char)
    ensures var len := if IndexOf(s, b) < IndexOf(s, a) then IndexOf(s, b) else IndexOf(s, a);
            Split(Split(s, a)[0], b)[0] == s[..len]
  {
    var e := IndexOf(s, a);
    FirstPiece(s, a);
    FirstPiece(s[..e], b);
    IndexOfPrefix(s, e, b);
    var len := if IndexOf(s, b) < e then IndexOf(s, b) else e;
    assert s[..e][..len] == s[..len];
  }
}

=== FILE: results.dfy ===
/** `Option` stands for Python's `None`-or-value (an unset environment
    variable, a body that did not decode); `Result` for a step of the script
    that either returns or raises, so that `:-` propagates the exception the
    way Python unwinds the call. */
module Results {

  datatype Option<+T> = None | Some(value: T)

  datatype Result<+R, +E> = Success(value: R) | Failure(error: E) {

    predicate IsFailure() {
      Failure?
    }

    function PropagateFailure<U>(): Result<U, E>
      requires Failure?
    {
      Failure(error)
    }

    function Extract(): R
      requires Success?
    {
      value
    }
  }
}

/** The Python exceptions the script can raise on its pure paths. */
module Errors {

  datatype Error =
    | KeyError(key: string)   // subscript of a dict with a missing key
    | TypeError               // subscript or iteration of a value that does not support it
    | IndexError              // `xs[k]` on a list with at most k items
    | JsonDecodeError         // `req.json()` on a body that is not JSON
}

=== FILE: server.dfy ===
/** The request handler: which requests answer with which page, and the one
    request, the OAuth redirect, that runs the whole export before it answers. */
module Server {
  import opened Results
  import opened Errors
  import opened PyStr
  import opened Auth
  import opened Export
  import opened Startup

  datatype Method = GET | HEAD | POST

  datatype Reply = Reply(status: nat, headers: seq<(string, string)>, body: Option<string>)

  const GetPage: string :=
    "<html><body><h1>hi!</h1><script>alert('You can now close this page')</script></body></html>"

  const PostPage: string := "<html><body><h1>POST!</h1></body></html>"

  /** `_set_headers`, then the body written after it, if any. */
  function Respond(body: Option<string>): (r: Reply)
    ensures r.status == 200 && r.body == body
    ensures ("Content-type", "text/html") in r.headers
  {
    Reply(200, [("Content-type", "text/html")], body)
  }

  /** A routing decision: the reply, and the authorization code handed to the
      export pipeline when the request triggers it. */
  datatype Route = Route(reply: Reply, code: Option<string>)

  /** `do_GET`, `do_HEAD` and `do_POST` without their side effects. */
  function Dispatch(m: Method, path: string): (r: Route)
    ensures r.reply.status == 200 && r.reply.headers == [("Content-type", "text/html")]
    ensures r.code.Some? <==> m == GET && StartsWith(path, CodePrefix)
    ensures r.code.Some? ==> '=' !in r.code.value
    ensures r.reply.body.None? <==> m == HEAD
    ensures m == POST ==> r.reply.body == Some(PostPage)
    ensures m == GET ==> r.reply.body == Some(GetPage)
  {
    match m
    case GET => Route(Respond(Some(GetPage)), ExtractCode(path))
    case HEAD => Route(Respond(None), None)
    case POST => Route(Respond(Some(PostPage)), None)
  }

  /** What handling one request amounts to: the reply sent together with the
      files written before it, or a modelled exception that escapes the
      handler, in which case no reply is sent and no file is written. */
  datatype Outcome = Responded(reply: Reply, writes: seq<Write>) | Crashed(error: Error)

  /** One request through the handler, the provider's answers given by `net`. */
  function Handle(m: Method, path: string, creds: Credentials, net: Network): (o: Outcome)
    ensures o.Responded? ==> o.reply == Dispatch(m, path).reply
    ensures !(m == GET && StartsWith(path, CodePrefix)) ==> o == Responded(Dispatch(m, path).reply, [])
    ensures o.Crashed? ==> m == GET && StartsWith(path, CodePrefix)
    ensures m == GET && StartsWith(path, CodePrefix)
            && '=' !in net.accessToken(creds.appId, creds.appSecret, ExtractCode(path).value)
            ==> o == Crashed(IndexError)
  {
    var route := Dispatch(m, path);
    match route.code
    case None => Responded(route.reply, [])
    case Some(code) =>
      match ParseToken(net.accessToken(creds.appId, creds.appSecret, code))
      case Failure(e) => Crashed(e)
      case Success(token) =>
        match SaveAllPlaylists(token, net)
        case Failure(e) => Crashed(e)
        case Success(writes) => Responded(route.reply, writes)
  }

  /** Requests other than the redirect never consult the provider: their
      outcome is the same whatever it would answer. */
  lemma OnlyRedirectUsesNetwork(m: Method, path: string, creds: Credentials, net1: Network, net2: Network)
    requires !(m == GET && StartsWith(path, CodePrefix))
    ensures Handle(m, path, creds, net1) == Handle(m, path, creds, net2)
    ensures Handle(m, path, creds, net1).writes == []
  {
  }

  /** The redirect end to end: the code goes to the token endpoint with the
      app's credentials, the token in the answer drives the export, and the
      page is sent once the export plan is complete. */
  lemma RedirectRunsExport(creds: Credentials, net: Network, code: string, x: string, y: string)
    requires '=' !in code
    requires '=' !in x && '&' !in x
    requires net.accessToken(creds.appId, creds.appSecret, code) == "access_token=" + x + "&expires=" + y
    ensures var o := Handle(GET, CodePrefix + code, creds, net);
            match SaveAllPlaylists(x, net)
            case Success(writes) => o == Responded(Respond(Some(GetPage)), writes)
            case Failure(e) => o == Crashed(e)
  {
    ExtractCodeRoundTrip(code);
    ParseTokenOfProviderBody(x, y);
    assert StartsWith(CodePrefix + code, CodePrefix) by {
      assert (CodePrefix + code)[..|CodePrefix|] == CodePrefix;
    }
  }
}

=== FILE: startup.dfy ===
/** The main guard: the credential check that gates startup, and the
    authorization URL the browser is sent to. */
module Startup {
  import opened Results
  import opened PyStr
  import opened Decimal
  import opened Auth

  datatype Credentials = Credentials(appId: string, appSecret: string)

  /** The port the listener binds, which the redirect URI names. */
  const ListenPort: nat := 7766

  const Origin: string := "http://127.0.0.1:7766"

  const CallbackPath: string := "/authfinish"

  const RedirectUri: string := Origin + CallbackPath

  const MissingCredentials: string :=
    "APP_ID and APP_SECRET environement variables must be defined!- See Readme for more information on this issue."

  /** Python's `not v` on an `os.environ.get` result: true for an unset
      variable and for the empty string. */
  predicate Falsy(v: Option<string>)
    ensures Falsy(v) <==> !(v.Some? && |v.value| > 0)
  {
    v.None? || v.value == ""
  }

  const AuthorizeEndpoint: string := "https://connect.deezer.com/oauth/auth.php?app_id="

  /** The provider's consent page, opened in the browser. */
  function AuthorizeUrl(appId: string): (url: string)
    ensures StartsWith(url, AuthorizeEndpoint + appId + "&redirect_uri=" + RedirectUri)
    ensures url[|url| - |"&perms=basic_access,email"|..] == "&perms=basic_access,email"
    ensures |url| == |AuthorizeEndpoint + appId + "&redirect_uri=" + RedirectUri| + |"&perms=basic_access,email"|
  {
    var head := AuthorizeEndpoint + appId + "&redirect_uri=" + RedirectUri;
    var url := head + "&perms=basic_access,email";
    assert url[..|head|] == head;
    url
  }

  /** What startup goes on to do once the guard passes: serve on the port
      with these credentials and open the consent page. */
  datatype Launch = Launch(credentials: Credentials, port: nat, browserUrl: string)

  /** The main guard: raise before anything starts unless both variables
      are set and non-empty. */
  function Start(appId: Option<string>, appSecret: Option<string>): (r: Result<Launch, string>)
    ensures r.Success? <==> appId.Some? && |appId.value| > 0 && appSecret.Some? && |appSecret.value| > 0
    ensures r.Failure? ==> r.error == MissingCredentials
    ensures r.Success? ==>
              && r.value.credentials == Credentials(appId.value, appSecret.value)
              && r.value.port == ListenPort
              && StartsWith(r.value.browserUrl, AuthorizeEndpoint + appId.value + "&redirect_uri=" + RedirectUri)
    ensures r.Success? ==> r.value.browserUrl == AuthorizeUrl(appId.value)
  {
    if Falsy(appId) || Falsy(appSecret) then
      Failure(MissingCredentials)
    else
      var url := AuthorizeUrl(appId.value);
      Success(Launch(Credentials(appId.value, appSecret.value), ListenPort, url))
  }

  /** The redirect URI names the port the listener binds. */
  lemma RedirectUriNamesListenPort()
    ensures RedirectUri == "http://127.0.0.1:" + NatToString(ListenPort) + CallbackPath
  {
  }

  /** The provider's redirect back to `RedirectUri?code=c` reaches the handler
      with a path the handler recognises, and it recovers `c`. */
  lemma RedirectReachesHandler(c: string)
    requires '=' !in c
    ensures CallbackPath + "?code=" + c == CodePrefix + c
    ensures ExtractCode(CallbackPath + "?code=" + c) == Some(c)
  {
    assert CallbackPath + "?code=" + c == CodePrefix + c;
    ExtractCodeRoundTrip(c);
  }
}
